=== FILE: README.md ===
# Framework detection of rhui-checks, in Dafny

`rhui-check.py` is a diagnostic script for cloud instances that register with the
SUSE update infrastructure. Before it can run any check, it has to know which
public cloud it is on. `get_framework` works this out:

1. It runs `dmidecode`.
2. It lower-cases the bytes the tool prints (`bytes.lower()`, which changes only
   `A`..`Z`).
3. It renders the result with `str(...)`. For a `bytes` value this is the Python
   repr (`b'...'` with escapes), not a decoding.
4. It looks for `"microsoft"`, `"amazon"` and `"google"`, in that order. The first
   one found gives `azure`, `ec2` or `gce`.

A missing binary (`FileNotFoundError`), a `CalledProcessError` from the launch,
or an output naming no vendor logs an error and exits the process.

The model is a pure function, `Detector.Classify`. Its input is the outcome of
the launch: `NotFound`, `LaunchError` or `Output(bytes)`. It returns
`Ok(Azure | Ec2 | Gce)`, or `Err(...)` for each of the three process exits.

The repr rendering is modelled in full, not treated as an opaque function.
`BytesRepr.Repr` follows CPython's `bytes` repr:

- The text is delimited by `"` when the bytes contain a `'` and no `"`; by `'`
  otherwise.
- A backslash and the chosen quote are escaped with a backslash.
- Tab, line feed and carriage return become `\t`, `\n` and `\r`.
- Every other byte below 0x20, or at 0x7f and above, becomes `\x` plus two
  lower-case hex digits.
- All other bytes are copied unchanged.

The model then proves exactly when a vendor name appears in the rendered text:

- `"microsoft"` and `"google"` appear in the rendered text exactly when they
  appear in the lowered output. No escape ends in `m` or `g`.
- `"amazon"` also appears when a byte rendered as `\x?a` is followed by `mazon`.
  An example is 0x1a followed by `mazon`: the script reports `ec2` although the
  output never spells "amazon" (`Detector.EscapeMakesAmazon`).

Modules:

- `Ascii` (`ascii.dfy`): the byte type, `bytes.lower()`, and case-insensitive
  equality.
- `Search` (`search.dfy`): Python's substring test `pat in text`.
- `BytesRepr` (`bytes_repr.dfy`): the repr rendering, the occurrence theorem, and
  a reader that inverts the rendering.
- `Detector` (`detector.dfy`): `get_framework` itself, with its priority and
  exhaustiveness properties.

## Model

| member | source | states |
|---|---|---|
| Detector.Classify | rhui-check.py:29-51 | a missing binary (`FileNotFoundError`, lines 37-39) gives `Err(ToolNotFound)` and only it does; a `CalledProcessError` (lines 34-36) gives `Err(ToolExecutionError)` and only it does; a framework is produced only when the tool produced output, so both caught launch failures end before any vendor test |
| Detector.DmiTextReadsBack | rhui-check.py:41 | the text the vendor names are looked for in is a `bytes` literal that reads back as exactly the lowered output |
| Detector.ClassifyIsFirstMatch | rhui-check.py:42-50 | the if/elif chain equals a first-match-wins lookup in the ordered table microsoft→azure, amazon→ec2, google→gce, where no table entry matches it ends with `Err(Unsupported)` |
| Detector.FirstMatch | rhui-check.py:42-50 | first-match lookup: it fails (only with `Unsupported`) exactly when no name of the table occurs; on success it returns the framework of a name that occurs and no earlier name occurs |
| Detector.AzureExactly | rhui-check.py:41-43 | the result is azure exactly when the lowered output contains "microsoft", whatever else it contains |
| Detector.Ec2Exactly | rhui-check.py:41-45 | the result is ec2 exactly when "microsoft" is absent and "amazon" is in the rendered text, that is, in the lowered output or made by an escape ending in `a` followed by "mazon" |
| Detector.AmazonMeansEc2 | rhui-check.py:44-45 | "amazon" in the lowered output without "microsoft" gives ec2 |
| Detector.GceExactly | rhui-check.py:41-47 | the result is gce exactly when "google" is in the lowered output and neither "microsoft" nor "amazon" is in the rendered text |
| Detector.UnsupportedExactly | rhui-check.py:48-50 | the run ends with `Unsupported`, and no framework is produced, exactly when none of the three names is in the rendered text |
| Detector.ClassifyIgnoresCase | rhui-check.py:41 | two outputs that differ only in the case of ASCII letters are classified alike |
| Detector.EscapeMakesAmazon | rhui-check.py:41-45 | the output 0x1a "mazon" does not contain "amazon", yet it is classified ec2, because the repr renders 0x1a as `\x1a` |
| Detector.ExactVendorsInText | rhui-check.py:41-47 | "microsoft", and likewise "google", is in the repr of the lowered output exactly when it is in the lowered output |
| Detector.AmazonInText | rhui-check.py:41 | "amazon" is in the repr of the lowered output exactly when it is in the lowered output, or when an escape ending in `a` is followed by "mazon" |
| Detector.Name | rhui-check.py:43-47 | the returned framework name is one of "azure", "ec2" and "gce" |
| Detector.ReturnedName | rhui-check.py:41-51 | stated on the output itself: a name is returned exactly when the lowered output mentions "microsoft" or "google", or "amazon" is in its rendering; the name is "azure" exactly when the output mentions "microsoft", "ec2" exactly when it does not and "amazon" is in the rendering, and "gce" exactly when it mentions "google" and neither earlier name is found; so a normal return is exactly one of the three names |
| Ascii.Lower | rhui-check.py:41 | `bytes.lower()` keeps the length and folds every byte on its own |
| Ascii.LowerIdentifiesCaseVariants | rhui-check.py:41 | two outputs lower to the same bytes exactly when they differ only in ASCII letter case |
| Ascii.LowerIdempotent | rhui-check.py:41 | lowering an already lowered output changes nothing |
| Search.Contains | rhui-check.py:42 | `pat in text` is true exactly when `pat` occurs at some index of `text` |
| BytesRepr.Repr | rhui-check.py:41 | the rendered text starts with `b` and the quote chosen for the bytes, and ends with the same quote |
| BytesRepr.QuoteFor | rhui-check.py:41 | the chosen quote is `"` exactly when the bytes contain `'` and no `"`; the chosen quote occurs in the bytes (and so needs escaping) only when both kinds of quote do |
| BytesRepr.EscapeByteShape | rhui-check.py:41 | the rendering of one byte (`EscapeByte`) copies the byte exactly when it is printable ASCII other than the chosen quote and the backslash; every other byte becomes a backslash escape of two characters, or of four ending in two hex digits |
| BytesRepr.UnescapeFirstOfEscape | rhui-check.py:41 | the rendering of any byte reads back as that byte, however the text continues |
| BytesRepr.WordInRepr | rhui-check.py:41 | a lower-case word whose second letter is not a hex digit is in the rendered text exactly when it is in the bytes, or when an escaped byte ends in its first letter and the following bytes spell the rest |
| BytesRepr.WordInReprExact | rhui-check.py:41 | for a lower-case word whose first letter ends no escape and whose second letter is not a hex digit, rendering neither adds nor removes occurrences |
| BytesRepr.EscapeAppend | rhui-check.py:41 | rendering the concatenation of two byte strings renders each in turn |
| BytesRepr.ReprRoundTrip | rhui-check.py:41 | reading the rendered text back gives the original bytes, so the repr loses no information |
| BytesRepr.ReprInjective | rhui-check.py:41 | different outputs render to different texts |

## Left out

- Running `dmidecode` and reading its pipe (rhui-check.py:31-33, 41) is process I/O. The model takes the launch outcome as its input instead.
- `logging.error` and `sys.exit()` (rhui-check.py:35-39, 49-50) are side effects. Each exit is an `Err` variant, and the log text is not modelled.
- The exit status of `dmidecode` is not modelled, because the script never waits for it or checks it.
- `LaunchError` stands for the `except CalledProcessError` branch (rhui-check.py:34-36). `Popen` never raises that exception, so the branch cannot be reached in practice. It is modelled because the code has it.
- Launch failures the code does not catch are not modelled. Examples are a `PermissionError` for a `dmidecode` that is not executable, any other `OSError` from `Popen`, or an error from reading the pipe at rhui-check.py:41. Such an exception escapes `get_framework` uncaught. What the caller does with it is outside the shown code. `get_framework` does not log an error and call `sys.exit()` for it, so it is none of the `Err` results.
- Python's `-b` flag, which makes `str(bytes)` warn or raise, is not modelled. Under that flag the rendering is unchanged, or the script aborts before classifying.
- Module imports, the `urllib3` warning suppression (rhui-check.py:6-23), and the registration, connectivity and repository-repair checks the docstring mentions are not part of this model.
- Detector.GceExactly, Detector.UnsupportedExactly: these are stated on the rendered text, not on the raw output alone. A stray `\x?a` escape before `mazon` turns a would-be gce or unsupported output into ec2. This follows the code as written, which tests the repr. It departs from the plain reading "contains google but not amazon".
- BytesRepr.Unrepr reads back every text `Repr` produces, and some other literals too, such as `b'\x41'` or `b"a"`. It is not a full reader of Python bytes literals.

=== FILE: ascii.dfy ===
/**
  Bytes as a child process writes them to a pipe, and the one transformation
  the framework detector applies to them before rendering: `bytes.lower()`,
  which folds only the ASCII capitals `A`..`Z` and leaves every other byte
  (including all bytes at or above 0x80) untouched.
 */
module Ascii {

  /** One octet of a byte string. */
  newtype byte = x: int | 0 <= x < 256

  /** The ASCII capitals, the only bytes `bytes.lower()` changes. */
  predicate IsUpper(b: byte) {
    'A' as byte <= b <= 'Z' as byte
  }

  /** `bytes.lower()` on a single byte. */
  function LowerByte(b: byte): (r: byte)
    ensures !IsUpper(r)
    ensures r == b || IsUpper(b)
  {
    if IsUpper(b) then b + 32 else b
  }

  /** `bytes.lower()`: every byte folded on its own, length unchanged. */
  function Lower(bs: seq<byte>): (r: seq<byte>)
    ensures |r| == |bs|
    ensures forall i :: 0 <= i < |bs| ==> r[i] == LowerByte(bs[i])
  {
    if |bs| == 0 then [] else [LowerByte(bs[0])] + Lower(bs[1..])
  }

  /** `x` and `y` are the same byte once ASCII letter case is disregarded. */
  predicate SameIgnoringCase(x: byte, y: byte) {
    || x == y
    || (IsUpper(x) && y as int == x as int + 32)
    || (IsUpper(y) && x as int == y as int + 32)
  }

  /** Two byte strings that differ at most in the case of ASCII letters. */
  predicate EqualIgnoringCase(a: seq<byte>, b: seq<byte>) {
    |a| == |b| && forall i :: 0 <= i < |a| ==> SameIgnoringCase(a[i], b[i])
  }

  /** Lowering identifies exactly the strings that differ only in ASCII letter case. */
  lemma LowerIdentifiesCaseVariants(a: seq<byte>, b: seq<byte>)
    ensures Lower(a) == Lower(b) <==> EqualIgnoringCase(a, b)
  {
    if Lower(a) == Lower(b) {
      forall i | 0 <= i < |a|
        ensures SameIgnoringCase(a[i], b[i])
      {
        assert LowerByte(a[i]) == Lower(a)[i] == Lower(b)[i] == LowerByte(b[i]);
      }
    }
    if EqualIgnoringCase(a, b) {
      assert forall i :: 0 <= i < |a| ==> Lower(a)[i] == Lower(b)[i];
    }
  }

  /** Lowering twice is lowering once. */
  lemma LowerIdempotent(bs: seq<byte>)
    ensures Lower(Lower(bs)) == Lower(bs)
  {
    assert forall i :: 0 <= i < |bs| ==> Lower(Lower(bs))[i] == Lower(bs)[i];
  }

  /** The text a byte string spells when each byte is read as the code point of the same number. */
  function AsChars(bs: seq<byte>): (s: string)
    ensures |s| == |bs|
    ensures forall i :: 0 <= i < |bs| ==> s[i] as int == bs[i] as int
  {
    seq(|bs|, i requires 0 <= i < |bs| => bs[i] as char)
  }

  /** Reading a slice is slicing the reading. */
  lemma AsCharsSlice(bs: seq<byte>, lo: int, hi: int)
    requires 0 <= lo <= hi <= |bs|
    ensures AsChars(bs[lo..hi]) == AsChars(bs)[lo..hi]
  {
  }
}

=== FILE: bytes_repr.dfy ===
/**
  The text `str(b)` produces for a Python 3 `bytes` value `b`: its repr, not a
  decoding. The rendering follows CPython's `bytes` repr:

  - the text is `b`, a quote, the escaped body, and the same quote again;
  - the quote is `"` when the bytes hold a `'` and no `"`, and `'` otherwise;
  - in the body a backslash or the chosen quote is preceded by a backslash,
    tab, line feed and carriage return become `\t`, `\n`, `\r`, every other
    byte below 0x20 or from 0x7f upwards becomes `\x` and two lower-case hex
    digits, and all remaining (printable ASCII) bytes are copied unchanged.

  The main result, `WordInRepr`, says when a lower-case word occurs in the
  rendered text: either it occurs in the bytes themselves, or a byte rendered
  as an escape ends in the word's first letter and the bytes after it spell the
  rest of the word.
 */
module BytesRepr {
  import opened Ascii
  import opened Search

  datatype Option<T> = None | Some(value: T)

  const HexDigits: string := "0123456789abcdef"

  predicate IsQuote(c: char) {
    c == '\'' || c == '"'
  }

  predicate IsWordChar(c: char) {
    'a' <= c <= 'z'
  }

  /** A non-empty run of lower-case ASCII letters, such as a vendor name. */
  predicate IsWord(w: string) {
    |w| > 0 && forall i :: 0 <= i < |w| ==> IsWordChar(w[i])
  }

  predicate IsHexDigit(c: char) {
    '0' <= c <= '9' || 'a' <= c <= 'f'
  }

  /**
    The quote character the repr of `bs` is delimited by: the single quote
    unless that would need escaping and the double quote would not. The
    chosen quote itself occurs in the bytes, and so needs escaping, only when
    both kinds occur.
   */
  function QuoteFor(bs: seq<byte>): (q: char)
    ensures IsQuote(q)
    ensures q == '"' <==> '\'' as byte in bs && '"' as byte !in bs
    ensures q as byte in bs ==> q == '\'' && '"' as byte in bs
  {
    if '\'' as byte in bs && '"' as byte !in bs then '"' else '\''
  }

  /**
    The rendering of one byte inside a body delimited by `quote`: the byte
    itself exactly when it is printable ASCII other than the quote and the
    backslash, and otherwise a backslash escape of two or four characters.
   */
  function EscapeByte(b: byte, quote: char): string
  {
    if b as int == quote as int || b == '\\' as byte then ['\\', b as char]
    else if b == '\t' as byte then "\\t"
    else if b == '\n' as byte then "\\n"
    else if b == '\r' as byte then "\\r"
    else if b < 0x20 || b >= 0x7f then ['\\', 'x', HexDigits[b as int / 16], HexDigits[b as int % 16]]
    else [b as char]
  }

  /** The escaped body: each byte rendered in turn. */
  function Escape(bs: seq<byte>, quote: char): string
  {
    if |bs| == 0 then [] else EscapeByte(bs[0], quote) + Escape(bs[1..], quote)
  }

  /** `str(bs)` for a Python 3 `bytes` value `bs`. */
  function Repr(bs: seq<byte>): (r: string)
    ensures |r| >= 3 && r[0] == 'b' && IsQuote(r[1]) && r[|r| - 1] == r[1]
    ensures r[1] == QuoteFor(bs)
  {
    var q := QuoteFor(bs);
    "b" + [q] + (Escape(bs, q) + [q])
  }

  /** True when byte `b` is rendered as a backslash escape whose last character is the letter `c`. */
  predicate EscapeEndsWith(b: byte, c: char) {
    || (b == '\t' as byte && c == 't')
    || (b == '\n' as byte && c == 'n')
    || (b == '\r' as byte && c == 'r')
    || (&& (b < 0x20 || b >= 0x7f)
        && b != '\t' as byte && b != '\n' as byte && b != '\r' as byte
        && c == HexDigits[b as int % 16])
  }

  /**
    The word `w` appears in the rendering of `bs` although not in `bs`
    itself: an escaped byte supplies its first letter and the bytes after it
    spell the rest.
   */
  ghost predicate OccursAfterEscape(bs: seq<byte>, w: string) {
    |w| > 0 && exists j :: EscapeSuppliesAt(bs, w, j)
  }

  /** The byte at `j` is rendered as an escape ending in `w[0]`, and the bytes after it spell `w[1..]`. */
  ghost predicate EscapeSuppliesAt(bs: seq<byte>, w: string, j: int) {
    && |w| > 0 && 0 <= j && j + |w| <= |bs|
    && EscapeEndsWith(bs[j], w[0])
    && AsChars(bs[j + 1..j + |w|]) == w[1..]
  }

  // ---------------------------------------------------------------------
  // Shape of a rendered byte
  // ---------------------------------------------------------------------

  /** What a rendered byte looks like: one copied character, or a backslash escape. */
  lemma EscapeByteShape(b: byte, q: char)
    requires IsQuote(q)
    ensures var e := EscapeByte(b, q);
      && (|e| == 1 || |e| == 2 || |e| == 4)
      && (|e| == 1 <==> 0x20 <= b < 0x7f && b as int != q as int && b != '\\' as byte)
      && (|e| == 1 ==> e[0] as int == b as int)
      && (|e| > 1 ==> e[0] == '\\')
      && (|e| == 4 ==> IsHexDigit(e[2]) && IsHexDigit(e[3]))
      && (|e| > 1 && IsWordChar(e[|e| - 1]) ==> EscapeEndsWith(b, e[|e| - 1]))
  {
    if b < 0x20 || b >= 0x7f {
      HexValueOfDigit(b as int / 16);
      HexValueOfDigit(b as int % 16);
    }
  }

  /** A lower-case letter is copied into the body unchanged. */
  lemma EscapeWordChar(b: byte, q: char)
    requires IsQuote(q) && IsWordChar(b as char)
    ensures EscapeByte(b, q) == [b as char]
  {
  }

  /** Rendering distributes over concatenation. */
  lemma {:induction false} EscapeAppend(a: seq<byte>, b: seq<byte>, q: char)
    ensures Escape(a + b, q) == Escape(a, q) + Escape(b, q)
    decreases |a|
  {
    if |a| == 0 {
      assert a + b == b;
    } else {
      assert (a + b)[1..] == a[1..] + b;
      EscapeAppend(a[1..], b, q);
    }
  }

  /** Bytes that spell a word are rendered as that word. */
  lemma {:induction false} EscapeOfWord(bs: seq<byte>, q: char)
    requires IsQuote(q) && forall i :: 0 <= i < |bs| ==> IsWordChar(bs[i] as char)
    ensures Escape(bs, q) == AsChars(bs)
    decreases |bs|
  {
    if |bs| > 0 {
      EscapeWordChar(bs[0], q);
      EscapeOfWord(bs[1..], q);
      assert AsChars(bs) == [bs[0] as char] + AsChars(bs[1..]);
    }
  }

  /** Unfolding the rendered body (closing quote included) by one byte. */
  lemma EscapeCons(bs: seq<byte>, q: char)
    ensures |bs| == 0 ==> Escape(bs, q) + [q] == [q]
    ensures |bs| > 0 ==> Escape(bs, q) + [q] == EscapeByte(bs[0], q) + (Escape(bs[1..], q) + [q])
  {
  }

  /**
    If the text from the start of a rendered body onwards (closing quote
    included) begins with letters `v`, the bytes begin with `v`.
   */
  lemma {:induction false} WordPrefixOfEscaped(bs: seq<byte>, q: char, v: string)
    requires IsQuote(q)
    requires forall i :: 0 <= i < |v| ==> IsWordChar(v[i])
    requires v <= Escape(bs, q) + [q]
    ensures |v| <= |bs| && AsChars(bs[..|v|]) == v
    decreases |v|
  {
    if |v| > 0 {
      EscapeCons(bs, q);
      assert v[0] == (Escape(bs, q) + [q])[0];
      if |bs| == 0 {
        assert false;
      }
      var e := EscapeByte(bs[0], q);
      EscapeByteShape(bs[0], q);
      assert e[0] == v[0] by {
        assert v[0] == (Escape(bs, q) + [q])[0] == (e + (Escape(bs[1..], q) + [q]))[0];
      }
      assert |e| == 1;
      assert v[1..] <= Escape(bs[1..], q) + [q];
      WordPrefixOfEscaped(bs[1..], q, v[1..]);
      assert bs[1..][..|v| - 1] == bs[1..|v|];
      assert AsChars(bs[..|v|]) == AsChars(bs[..1]) + AsChars(bs[1..|v|]);
    }
  }

  /** An occurrence in the bytes after the first is an occurrence in the whole. */
  lemma LiftOccurrence(bs: seq<byte>, w: string, k: int)
    requires |bs| > 0 && OccursAt(AsChars(bs[1..]), w, k)
    ensures OccursAt(AsChars(bs), w, k + 1)
  {
    AsCharsSlice(bs, 1, |bs|);
    assert AsChars(bs)[k + 1..k + 1 + |w|] == AsChars(bs[1..])[k..k + |w|];
  }

  /** An escape-made occurrence in the bytes after the first is one in the whole. */
  lemma LiftEscapeOccurrence(bs: seq<byte>, w: string, j: int)
    requires |bs| > 0 && EscapeSuppliesAt(bs[1..], w, j)
    ensures EscapeSuppliesAt(bs, w, j + 1)
  {
    assert bs[1..][j + 1..j + |w|] == bs[j + 2..j + 1 + |w|];
  }

  /** Either kind of occurrence in the bytes after the first carries over to the whole. */
  lemma LiftEither(bs: seq<byte>, w: string)
    requires |bs| > 0
    requires Occurs(AsChars(bs[1..]), w) || OccursAfterEscape(bs[1..], w)
    ensures Occurs(AsChars(bs), w) || OccursAfterEscape(bs, w)
  {
    if k :| OccursAt(AsChars(bs[1..]), w, k) {
      LiftOccurrence(bs, w, k);
    } else {
      var j :| EscapeSuppliesAt(bs[1..], w, j);
      LiftEscapeOccurrence(bs, w, j);
    }
  }

  /** What an occurrence starting inside the head piece of a concatenation says about the pieces. */
  lemma OccurrenceStartingInHead<T>(e: seq<T>, rest: seq<T>, w: seq<T>, i: int)
    requires 0 <= i < |e| && |w| >= 2 && OccursAt(e + rest, w, i)
    ensures e[i] == w[0]
    ensures i + 1 < |e| ==> e[i + 1] == w[1]
    ensures i + 1 == |e| ==> w[1..] <= rest
  {
    assert (e + rest)[i] == e[i] && (e + rest)[i..i + |w|][0] == w[0];
    if i + 1 < |e| {
      assert (e + rest)[i + 1] == e[i + 1] && (e + rest)[i..i + |w|][1] == w[1];
    }
    if i + 1 == |e| {
      assert w[1..] == (e + rest)[|e|..i + |w|] == rest[..|w| - 1];
    }
  }

  /** An occurrence that starts inside the rendering of the first byte. */
  lemma OccurrenceFromFirstByte(bs: seq<byte>, q: char, w: string, i: int)
    requires IsQuote(q) && IsWord(w) && |w| >= 2 && !IsHexDigit(w[1])
    requires |bs| > 0 && 0 <= i < |EscapeByte(bs[0], q)|
    requires OccursAt(EscapeByte(bs[0], q) + (Escape(bs[1..], q) + [q]), w, i)
    ensures Occurs(AsChars(bs), w) || OccursAfterEscape(bs, w)
  {
    var e := EscapeByte(bs[0], q);
    var rest := Escape(bs[1..], q) + [q];
    EscapeByteShape(bs[0], q);
    OccurrenceStartingInHead(e, rest, w, i);
    if i + 1 < |e| {
      assert false;
    }
    assert AsChars(bs[1..|w|]) == w[1..] by {
      WordPrefixOfEscaped(bs[1..], q, w[1..]);
      assert bs[1..][..|w| - 1] == bs[1..|w|];
    }
    if |e| == 1 {
      assert OccursAt(AsChars(bs), w, 0) by {
        AsCharsSlice(bs, 1, |w|);
        assert AsChars(bs)[..|w|] == [AsChars(bs)[0]] + AsChars(bs)[1..|w|];
      }
    } else {
      assert EscapeSuppliesAt(bs, w, 0);
    }
  }

  /**
    Where an occurrence of a word inside a rendered body (closing quote
    included) can come from.
   */
  lemma {:induction false} OccurrenceInEscaped(bs: seq<byte>, q: char, w: string, i: int)
    requires IsQuote(q) && IsWord(w) && |w| >= 2 && !IsHexDigit(w[1])
    requires OccursAt(Escape(bs, q) + [q], w, i)
    ensures Occurs(AsChars(bs), w) || OccursAfterEscape(bs, w)
    decreases |bs|
  {
    EscapeCons(bs, q);
    if |bs| == 0 {
      assert false;
    }
    var e := EscapeByte(bs[0], q);
    var rest := Escape(bs[1..], q) + [q];
    if i >= |e| {
      assert OccursAt(rest, w, i - |e|) by {
        assert rest[i - |e|..i - |e| + |w|] == (e + rest)[i..i + |w|];
      }
      OccurrenceInEscaped(bs[1..], q, w, i - |e|);
      LiftEither(bs, w);
    } else {
      OccurrenceFromFirstByte(bs, q, w, i);
    }
  }

  /** Whatever the rendered body contains, the rendered text contains. */
  lemma BodyOccurrenceInRepr(bs: seq<byte>, pre: string, w: string, post: string)
    requires Escape(bs, QuoteFor(bs)) == pre + w + post
    ensures Occurs(Repr(bs), w)
  {
    var q := QuoteFor(bs);
    assert Repr(bs) == ("b" + [q] + pre) + w + (post + [q]);
    ContainsInMiddle("b" + [q] + pre, w, post + [q], w, 0);
  }

  /** Rendering a string whose middle spells a word. */
  lemma EscapeAroundWord(a: seq<byte>, m: seq<byte>, z: seq<byte>, q: char)
    requires IsQuote(q) && forall i :: 0 <= i < |m| ==> IsWordChar(m[i] as char)
    ensures Escape(a + m + z, q) == Escape(a, q) + AsChars(m) + Escape(z, q)
  {
    EscapeOfWord(m, q);
    EscapeAppend(a + m, z, q);
    EscapeAppend(a, m, q);
  }

  /** Bytes that read as lower-case letters are lower-case letters. */
  lemma WordCharsOfReading(m: seq<byte>, v: string)
    requires AsChars(m) == v && forall i :: 0 <= i < |v| ==> IsWordChar(v[i])
    ensures forall i :: 0 <= i < |m| ==> IsWordChar(m[i] as char)
  {
    assert forall i :: 0 <= i < |m| ==> m[i] as char == AsChars(m)[i];
  }

  /** A word spelled by the bytes is copied into the rendered text. */
  lemma WordFromBytesReachesRepr(bs: seq<byte>, w: string, k: int)
    requires IsWord(w) && OccursAt(AsChars(bs), w, k)
    ensures Occurs(Repr(bs), w)
  {
    var q := QuoteFor(bs);
    var a, m, z := bs[..k], bs[k..k + |w|], bs[k + |w|..];
    assert bs == a + m + z;
    assert AsChars(m) == w by {
      AsCharsSlice(bs, k, k + |w|);
    }
    WordCharsOfReading(m, w);
    EscapeAroundWord(a, m, z, q);
    BodyOccurrenceInRepr(bs, Escape(a, q), w, Escape(z, q));
  }

  /** A byte whose escape ends in `c` renders as a backslash escape whose last character is `c`. */
  lemma EscapeEndingIn(b: byte, q: char, c: char)
    requires IsQuote(q) && EscapeEndsWith(b, c)
    ensures var e := EscapeByte(b, q); |e| > 1 && e[|e| - 1] == c
  {
  }

  /** Rendering one more byte appends its rendering. */
  lemma EscapeSnoc(bs: seq<byte>, b: byte, q: char)
    ensures Escape(bs + [b], q) == Escape(bs, q) + EscapeByte(b, q)
  {
    EscapeAppend(bs, [b], q);
    assert Escape([b], q) == EscapeByte(b, q) + Escape([], q);
  }

  /** Moving the last element of `e` onto the front of `w`, where it belongs. */
  lemma GlueLast<T>(p: seq<T>, e: seq<T>, w: seq<T>, z: seq<T>)
    requires |e| > 0 && |w| > 0 && e[|e| - 1] == w[0]
    ensures p + e + w[1..] + z == (p + e[..|e| - 1]) + w + z
  {
    assert e == e[..|e| - 1] + [w[0]];
    assert w == [w[0]] + w[1..];
  }

  /** An escape ending in the word's first letter, followed by the rest of the word, puts the word into the rendered text. */
  lemma WordAfterEscapeReachesRepr(bs: seq<byte>, w: string, j: int)
    requires IsWord(w) && EscapeSuppliesAt(bs, w, j)
    ensures Occurs(Repr(bs), w)
  {
    var q := QuoteFor(bs);
    var a, m, z := bs[..j], bs[j + 1..j + |w|], bs[j + |w|..];
    assert bs == (a + [bs[j]]) + m + z;
    WordCharsOfReading(m, w[1..]);
    EscapeAroundWord(a + [bs[j]], m, z, q);
    EscapeSnoc(a, bs[j], q);
    var e := EscapeByte(bs[j], q);
    EscapeEndingIn(bs[j], q, w[0]);
    GlueLast(Escape(a, q), e, w, Escape(z, q));
    BodyOccurrenceInRepr(bs, Escape(a, q) + e[..|e| - 1], w, Escape(z, q));
  }

  /** An occurrence in the rendered text lies in the body, so it comes from the bytes or an escape. */
  lemma WordInReprComesFromBytes(bs: seq<byte>, w: string)
    requires IsWord(w) && |w| >= 2 && !IsHexDigit(w[1])
    requires Occurs(Repr(bs), w)
    ensures Occurs(AsChars(bs), w) || OccursAfterEscape(bs, w)
  {
    var q := QuoteFor(bs);
    var i :| OccursAt(Repr(bs), w, i);
    assert IsWordChar(w[0]) && IsWordChar(w[1]);
    OccursAtIndex(Repr(bs), w, i, 0);
    OccursAtIndex(Repr(bs), w, i, 1);
    assert i >= 2;
    OccurrenceAfterPrefix("b" + [q], Escape(bs, q) + [q], w, i);
    OccurrenceInEscaped(bs, q, w, i - 2);
  }

  /**
    A lower-case word whose second letter is not a hex digit occurs in the
    rendered text exactly when it occurs in the bytes, or an escaped byte
    supplies its first letter.
   */
  lemma WordInRepr(bs: seq<byte>, w: string)
    requires IsWord(w) && |w| >= 2 && !IsHexDigit(w[1])
    ensures Occurs(Repr(bs), w) <==> Occurs(AsChars(bs), w) || OccursAfterEscape(bs, w)
  {
    if Occurs(Repr(bs), w) {
      WordInReprComesFromBytes(bs, w);
    }
    if Occurs(AsChars(bs), w) {
      var k :| OccursAt(AsChars(bs), w, k);
      WordFromBytesReachesRepr(bs, w, k);
    }
    if OccursAfterEscape(bs, w) {
      var j :| EscapeSuppliesAt(bs, w, j);
      WordAfterEscapeReachesRepr(bs, w, j);
    }
  }

  /** A word starting with a letter no escape ends in occurs in the rendered text exactly when it occurs in the bytes. */
  lemma WordInReprExact(bs: seq<byte>, w: string)
    requires IsWord(w) && |w| >= 2 && !IsHexDigit(w[1])
    requires !IsHexDigit(w[0]) && w[0] != 't' && w[0] != 'n' && w[0] != 'r'
    ensures Occurs(Repr(bs), w) <==> Occurs(AsChars(bs), w)
  {
    WordInRepr(bs, w);
    if OccursAfterEscape(bs, w) {
      var j :| EscapeSuppliesAt(bs, w, j);
      HexValueOfDigit(bs[j] as int % 16);
      assert false;
    }
  }

  // ---------------------------------------------------------------------
  // Reading a rendered literal back
  // ---------------------------------------------------------------------

  /** The value of a hex digit. */
  function HexValue(c: char): (v: int)
    requires IsHexDigit(c)
    ensures 0 <= v < 16
  {
    if c <= '9' then c as int - '0' as int else c as int - 'a' as int + 10
  }

  lemma HexValueOfDigit(k: int)
    requires 0 <= k < 16
    ensures IsHexDigit(HexDigits[k]) && HexValue(HexDigits[k]) == k
  {
  }

  /**
    Reads the first rendered byte of a body delimited by `quote`: the byte
    and how many characters spell it, or None when no rendering starts that way.
   */
  function UnescapeFirst(s: string, quote: char): (r: Option<(byte, int)>)
    requires |s| > 0
    ensures r.Some? ==> 1 <= r.value.1 <= |s|
  {
    if s[0] != '\\' then
      if 0x20 <= s[0] as int < 0x7f && s[0] != quote then Some((s[0] as byte, 1)) else None
    else if |s| < 2 then None
    else if s[1] == '\\' || IsQuote(s[1]) then Some((s[1] as byte, 2))
    else if s[1] == 't' then Some(('\t' as byte, 2))
    else if s[1] == 'n' then Some(('\n' as byte, 2))
    else if s[1] == 'r' then Some(('\r' as byte, 2))
    else if s[1] == 'x' && |s| >= 4 && IsHexDigit(s[2]) && IsHexDigit(s[3]) then
      Some(((16 * HexValue(s[2]) + HexValue(s[3])) as byte, 4))
    else None
  }

  /** Reads a whole escaped body back into the bytes it renders. */
  function Unescape(s: string, quote: char): Option<seq<byte>>
    decreases |s|
  {
    if |s| == 0 then Some([])
    else match UnescapeFirst(s, quote)
      case None => None
      case Some((b, n)) =>
        match Unescape(s[n..], quote)
        case None => None
        case Some(bs) => Some([b] + bs)
  }

  /** Reads a rendered `bytes` literal back into its bytes. */
  function Unrepr(s: string): Option<seq<byte>>
  {
    if |s| >= 3 && s[0] == 'b' && IsQuote(s[1]) && s[|s| - 1] == s[1] then
      Unescape(s[2..|s| - 1], s[1])
    else None
  }

  /** The first rendered byte reads back as that byte. */
  lemma UnescapeFirstOfEscape(b: byte, q: char, rest: string)
    requires IsQuote(q)
    ensures var e := EscapeByte(b, q);
      UnescapeFirst(e + rest, q) == Some((b, |e|))
  {
    if b < 0x20 || b >= 0x7f {
      HexValueOfDigit(b as int / 16);
      HexValueOfDigit(b as int % 16);
    }
  }

  /** Reading a rendered body gives back the bytes. */
  lemma {:induction false} UnescapeEscape(bs: seq<byte>, q: char)
    requires IsQuote(q)
    ensures Unescape(Escape(bs, q), q) == Some(bs)
    decreases |bs|
  {
    if |bs| > 0 {
      var e := EscapeByte(bs[0], q);
      var tail := Escape(bs[1..], q);
      assert Escape(bs, q) == e + tail;
      UnescapeFirstOfEscape(bs[0], q, tail);
      EscapeByteShape(bs[0], q);
      assert (e + tail)[|e|..] == tail;
      UnescapeEscape(bs[1..], q);
      assert [bs[0]] + bs[1..] == bs;
    }
  }

  /** `Repr` loses nothing: reading its text back gives the bytes it rendered. */
  lemma ReprRoundTrip(bs: seq<byte>)
    ensures Unrepr(Repr(bs)) == Some(bs)
  {
    var q := QuoteFor(bs);
    var r := Repr(bs);
    assert r[2..|r| - 1] == Escape(bs, q);
    UnescapeEscape(bs, q);
  }

  /** Distinct outputs render as distinct texts. */
  lemma ReprInjective(a: seq<byte>, b: seq<byte>)
    requires Repr(a) == Repr(b)
    ensures a == b
  {
    ReprRoundTrip(a);
    ReprRoundTrip(b);
  }
}

=== FILE: detector.dfy ===
/**
  The framework detector of `rhui-check.py` (`get_framework`): it runs
  `dmidecode`, lower-cases the bytes the tool prints, renders them with
  `str(...)` (the Python repr of the bytes, see `BytesRepr`) and looks for the
  vendor names "microsoft", "amazon" and "google", in that order; the first one
  found decides the public cloud. A missing binary (`FileNotFoundError`), a
  `CalledProcessError` from the launch, and an output naming none of the
  vendors end the run; here those ends are the `Err` results. Any other
  launch failure escapes uncaught and is not modelled.

  Launching the tool is not modelled: its outcome is the input `Launch`.
 */
module Detector {
  import opened Ascii
  import opened Search
  import opened BytesRepr

  /** The public cloud the instance runs on. */
  datatype Framework = Azure | Ec2 | Gce

  /** The three ways detection ends the run instead of returning. */
  datatype Failure =
    | ToolNotFound        // the `dmidecode` binary is not on the path
    | ToolExecutionError  // the launch raised `CalledProcessError`
    | Unsupported         // the output names no known vendor

  datatype Result = Ok(framework: Framework) | Err(failure: Failure)

  /**
    What launching `dmidecode` and reading its standard output came to:
    `FileNotFoundError`, `CalledProcessError` (the two exceptions the
    detector catches), or the bytes the tool printed.
   */
  datatype Launch = NotFound | LaunchError | Output(stdout: seq<byte>)

  /** The name `get_framework` returns for each framework. */
  function Name(f: Framework): (s: string)
    ensures s == "azure" || s == "ec2" || s == "gce"
  {
    match f
    case Azure => "azure"
    case Ec2 => "ec2"
    case Gce => "gce"
  }

  /** Vendor names in the order they are tried, each with the framework it stands for. */
  const Signatures: seq<(string, Framework)> := [("microsoft", Azure), ("amazon", Ec2), ("google", Gce)]

  /** The text the vendor names are looked for in: the repr of the lowered output. */
  function DmiText(stdout: seq<byte>): string {
    Repr(Lower(stdout))
  }

  /**
    The searched text is a `bytes` literal that reads back as the lowered
    output, so no byte of the output is lost on the way to the vendor tests.
   */
  lemma DmiTextReadsBack(stdout: seq<byte>)
    ensures Unrepr(DmiText(stdout)) == Some(Lower(stdout))
  {
    ReprRoundTrip(Lower(stdout));
  }

  /** `get_framework` with the launch outcome as input and each `sys.exit()` as an `Err`. */
  function Classify(launch: Launch): (r: Result)
    ensures r == Err(ToolNotFound) <==> launch.NotFound?
    ensures r == Err(ToolExecutionError) <==> launch.LaunchError?
    ensures r.Ok? ==> launch.Output?
  {
    match launch
    case NotFound => Err(ToolNotFound)
    case LaunchError => Err(ToolExecutionError)
    case Output(stdout) =>
      var text := DmiText(stdout);
      if Contains(text, "microsoft") then Ok(Azure)
      else if Contains(text, "amazon") then Ok(Ec2)
      else if Contains(text, "google") then Ok(Gce)
      else Err(Unsupported)
  }

  /**
    First-match-wins lookup in an ordered table of (vendor name, framework)
    pairs: the framework of the earliest name found in `text`.
   */
  function FirstMatch(text: string, table: seq<(string, Framework)>): (r: Result)
    ensures r.Err? ==> r.failure == Unsupported
    ensures r.Err? <==> forall k :: 0 <= k < |table| ==> !Contains(text, table[k].0)
    ensures r.Ok? ==> exists k :: && 0 <= k < |table|
                                  && Contains(text, table[k].0)
                                  && table[k].1 == r.framework
                                  && forall j :: 0 <= j < k ==> !Contains(text, table[j].0)
  {
    if |table| == 0 then Err(Unsupported)
    else if Contains(text, table[0].0) then
      Ok(table[0].1)
    else
      var r := FirstMatch(text, table[1..]);
      assert forall k :: 1 <= k < |table| ==> table[k] == table[1..][k - 1];
      if r.Ok? then
        var k :| && 0 <= k < |table[1..]|
                 && Contains(text, table[1..][k].0)
                 && table[1..][k].1 == r.framework
                 && forall j :: 0 <= j < k ==> !Contains(text, table[1..][j].0);
        assert forall j :: 0 <= j < k + 1 ==> !Contains(text, table[j].0);
        r
      else
        r
  }

  /** The if/elif chain of `get_framework` is the first-match lookup in `Signatures`. */
  lemma ClassifyIsFirstMatch(stdout: seq<byte>)
    ensures Classify(Output(stdout)) == FirstMatch(DmiText(stdout), Signatures)
  {
    var text := DmiText(stdout);
    var t1, t2, t3 := Signatures[1..], Signatures[2..], Signatures[3..];
    assert t1 == [("amazon", Ec2), ("google", Gce)] && t1[1..] == t2;
    assert t2 == [("google", Gce)] && t2[1..] == t3 && t3 == [];
    assert FirstMatch(text, t3) == Err(Unsupported);
    assert FirstMatch(text, t2) == if Contains(text, "google") then Ok(Gce) else Err(Unsupported);
    assert FirstMatch(text, t1) == if Contains(text, "amazon") then Ok(Ec2) else FirstMatch(text, t2);
    assert FirstMatch(text, Signatures) == if Contains(text, "microsoft") then Ok(Azure) else FirstMatch(text, t1);
  }

  /** `w` occurs in the output once it is lowered, read byte for byte as characters. */
  predicate LoweredMentions(stdout: seq<byte>, w: string) {
    Contains(AsChars(Lower(stdout)), w)
  }

  /**
    "microsoft" and "google" are in the rendered text exactly when they are in
    the lowered output: no escape ends in `m` or `g`.
   */
  lemma ExactVendorsInText(stdout: seq<byte>)
    ensures Contains(DmiText(stdout), "microsoft") <==> LoweredMentions(stdout, "microsoft")
    ensures Contains(DmiText(stdout), "google") <==> LoweredMentions(stdout, "google")
  {
    WordInReprExact(Lower(stdout), "microsoft");
    WordInReprExact(Lower(stdout), "google");
  }

  /**
    The rendered text of the output spells "amazon": the lowered output does,
    or an escape ending in `a` is followed by "mazon".
   */
  ghost predicate AmazonRendered(stdout: seq<byte>) {
    LoweredMentions(stdout, "amazon") || OccursAfterEscape(Lower(stdout), "amazon")
  }

  /**
    "amazon" is in the rendered text when it is in the lowered output, and
    also when a byte rendered as an escape ending in `a` (a `\xha` escape)
    is followed by "mazon".
   */
  lemma AmazonInText(stdout: seq<byte>)
    ensures Contains(DmiText(stdout), "amazon") <==> AmazonRendered(stdout)
  {
    WordInRepr(Lower(stdout), "amazon");
  }

  /** "microsoft" anywhere in the output, in any letter case, means Azure, whatever else is there; and only it does. */
  lemma AzureExactly(stdout: seq<byte>)
    ensures Classify(Output(stdout)) == Ok(Azure) <==> LoweredMentions(stdout, "microsoft")
  {
    ExactVendorsInText(stdout);
  }

  /** EC2 exactly when "microsoft" is absent and "amazon" is in the rendered text. */
  lemma Ec2Exactly(stdout: seq<byte>)
    ensures Classify(Output(stdout)) == Ok(Ec2) ==> !LoweredMentions(stdout, "microsoft") && AmazonRendered(stdout)
    ensures !LoweredMentions(stdout, "microsoft") && AmazonRendered(stdout) ==> Classify(Output(stdout)) == Ok(Ec2)
  {
    ExactVendorsInText(stdout);
    AmazonInText(stdout);
  }

  /** "amazon" in the output without "microsoft" means EC2. */
  lemma AmazonMeansEc2(stdout: seq<byte>)
    requires LoweredMentions(stdout, "amazon") && !LoweredMentions(stdout, "microsoft")
    ensures Classify(Output(stdout)) == Ok(Ec2)
  {
    Ec2Exactly(stdout);
  }

  /** GCE exactly when "google" is in the output and neither earlier name is in the rendered text. */
  lemma GceExactly(stdout: seq<byte>)
    ensures Classify(Output(stdout)) == Ok(Gce)
            <==> && !LoweredMentions(stdout, "microsoft")
                 && !AmazonRendered(stdout)
                 && LoweredMentions(stdout, "google")
  {
    ExactVendorsInText(stdout);
    AmazonInText(stdout);
  }

  /** An output whose rendered text names no vendor ends the run, and no framework is produced. */
  lemma UnsupportedExactly(stdout: seq<byte>)
    ensures Classify(Output(stdout)) == Err(Unsupported)
            <==> && !LoweredMentions(stdout, "microsoft")
                 && !AmazonRendered(stdout)
                 && !LoweredMentions(stdout, "google")
  {
    ExactVendorsInText(stdout);
    AmazonInText(stdout);
  }

  /** Outputs that differ only in ASCII letter case are classified alike. */
  lemma ClassifyIgnoresCase(a: seq<byte>, b: seq<byte>)
    requires EqualIgnoringCase(a, b)
    ensures Classify(Output(a)) == Classify(Output(b))
  {
    LowerIdentifiesCaseVariants(a, b);
  }

  /**
    Rendering can make a vendor name appear: the byte 0x1a renders as `\x1a`,
    so 0x1a followed by "mazon" is classified as EC2 though the output never
    spells "amazon".
   */
  lemma EscapeMakesAmazon()
    ensures var out: seq<byte> := [0x1a, 'm' as byte, 'a' as byte, 'z' as byte, 'o' as byte, 'n' as byte];
      && !LoweredMentions(out, "amazon")
      && Classify(Output(out)) == Ok(Ec2)
  {
    var out: seq<byte> := [0x1a, 'm' as byte, 'a' as byte, 'z' as byte, 'o' as byte, 'n' as byte];
    assert Lower(out) == out;
    assert AsChars(out[1..6]) == "mazon";
    assert EscapeSuppliesAt(out, "amazon", 0);
    assert OccursAfterEscape(out, "amazon");
    assert AmazonRendered(out);
    assert !Occurs(AsChars(out), "amazon") by {
      SameLengthOccurrence(AsChars(out), "amazon");
      assert AsChars(out)[0] != "amazon"[0];
    }
    assert !Occurs(AsChars(out), "microsoft");
    Ec2Exactly(out);
  }

  /**
    The name `get_framework` returns, in terms of the output itself: "azure"
    when the lowered output mentions "microsoft"; else "ec2" when "amazon" is
    in its rendering; else "gce" when it mentions "google". With none of
    these there is no name at all, only an exit.
   */
  lemma ReturnedName(stdout: seq<byte>)
    ensures Classify(Output(stdout)).Ok?
            <==> LoweredMentions(stdout, "microsoft") || AmazonRendered(stdout) || LoweredMentions(stdout, "google")
    ensures Classify(Output(stdout)).Ok? ==>
              (Name(Classify(Output(stdout)).framework) == "azure" <==> LoweredMentions(stdout, "microsoft"))
    ensures Classify(Output(stdout)).Ok? ==>
              (Name(Classify(Output(stdout)).framework) == "ec2"
               <==> !LoweredMentions(stdout, "microsoft") && AmazonRendered(stdout))
    ensures Classify(Output(stdout)).Ok? ==>
              (Name(Classify(Output(stdout)).framework) == "gce"
               <==> !LoweredMentions(stdout, "microsoft") && !AmazonRendered(stdout) && LoweredMentions(stdout, "google"))
  {
    ExactVendorsInText(stdout);
    AmazonInText(stdout);
  }
}

=== FILE: search.dfy ===
/**
  Substring containment, the `pattern in text` test the detector runs on the
  rendered output.
 */
module Search {

  /** `pat` sits in `text` starting at index `i`. */
  ghost predicate OccursAt<T>(text: seq<T>, pat: seq<T>, i: int) {
    0 <= i && i + |pat| <= |text| && text[i..i + |pat|] == pat
  }

  /** `pat` occurs somewhere in `text`. */
  ghost predicate Occurs<T>(text: seq<T>, pat: seq<T>) {
    exists i :: OccursAt(text, pat, i)
  }

  /** An occurrence in `text[1..]` is an occurrence in `text` one place later, and vice versa. */
  lemma ShiftOccurrence<T>(text: seq<T>, pat: seq<T>)
    requires |text| > 0 && !(pat <= text)
    ensures Occurs(text, pat) <==> Occurs(text[1..], pat)
  {
    if i :| OccursAt(text, pat, i) {
      assert i != 0;
      assert text[1..][i - 1..i - 1 + |pat|] == text[i..i + |pat|];
      assert OccursAt(text[1..], pat, i - 1);
    }
    if i :| OccursAt(text[1..], pat, i) {
      assert text[1..][i..i + |pat|] == text[i + 1..i + 1 + |pat|];
      assert OccursAt(text, pat, i + 1);
    }
  }

  /** Python's `pat in text`: true exactly when `pat` occurs somewhere in `text`. */
  function Contains<T(==)>(text: seq<T>, pat: seq<T>): (r: bool)
    ensures r <==> Occurs(text, pat)
    decreases |text|
  {
    if pat <= text then
      assert OccursAt(text, pat, 0);
      true
    else if |text| == 0 then
      false
    else
      ShiftOccurrence(text, pat);
      Contains(text[1..], pat)
  }

  /** An occurrence fixes the text character by character. */
  lemma OccursAtIndex<T>(text: seq<T>, pat: seq<T>, i: int, k: int)
    requires OccursAt(text, pat, i) && 0 <= k < |pat|
    ensures text[i + k] == pat[k]
  {
    assert text[i..i + |pat|][k] == pat[k];
  }

  /** An occurrence past a prefix is an occurrence in what follows the prefix. */
  lemma OccurrenceAfterPrefix<T>(p: seq<T>, body: seq<T>, pat: seq<T>, i: int)
    requires OccursAt(p + body, pat, i) && i >= |p|
    ensures OccursAt(body, pat, i - |p|)
  {
    assert body[i - |p|..i - |p| + |pat|] == (p + body)[i..i + |pat|];
  }

  /** In a text as long as the pattern, the pattern occurs only as the whole text. */
  lemma SameLengthOccurrence<T>(text: seq<T>, pat: seq<T>)
    requires |text| == |pat|
    ensures Occurs(text, pat) <==> text == pat
  {
    if text == pat {
      assert OccursAt(text, pat, 0);
    }
    if i :| OccursAt(text, pat, i) {
      assert i == 0 && text[0..|pat|] == text;
    }
  }

  /** An occurrence inside a middle piece is an occurrence in the whole. */
  lemma ContainsInMiddle<T>(a: seq<T>, b: seq<T>, c: seq<T>, pat: seq<T>, i: int)
    requires OccursAt(b, pat, i)
    ensures OccursAt(a + b + c, pat, |a| + i)
    ensures Occurs(a + b + c, pat)
  {
    assert (a + b + c)[|a| + i..|a| + i + |pat|] == b[i..i + |pat|];
    assert OccursAt(a + b + c, pat, |a| + i);
  }
}
